=== FILE: README.md ===
# Visor capture core in Dafny

Visor is a macOS menu-bar app. It captures the screen, or one window, with
ScreenCaptureKit and shows each frame in a floating panel through a Metal
compute shader that can be swapped while it runs. This project models the
two files that hold the app's own logic:

- `ScreenRecorder` is the capture-session controller. Its model covers:
  - the `isRunning`/`isSetup` state machine behind `start`, `stop` and `updateEngine`;
  - the property observers that push a new configuration to a running engine;
  - the catalog refresh, with its rule that fills a selection only while it is empty;
  - the window-list policy: sort by application name, then drop unowned windows and the app's own windows;
  - the window and display labels;
  - the stream configuration's arithmetic;
  - the content filter with its exclusion list.
- `MetalView` and `CapturePreview` are the render side. Their model covers:
  - the three slots (texture, shader library, pipeline) that keep their old value when an update fails;
  - the guard of `draw`;
  - the threadgroup grid, computed by ceiling division;
  - the single dispatch that `draw` encodes.

Platform services are inputs to the model:

- Content enumeration is a `Result` value: the shareable content, or an enumeration error.
- The frame stream is a sequence of deliveries plus how the stream ends.
- Texture creation, shader compilation, pipeline creation, and the command buffer, drawable and encoder are success or failure flags.

The capture engine is represented by the list of calls made on it (`engineCalls`). Process exit (`exit(0)` after the permission alert) and `fatalError` are a `Halt` value that the controller records.

Modules:

- `Common`: options, order-keeping filter, string order, decimal text.
- `Catalog`: apps, displays and windows, the window policy, labels.
- `StreamSettings`: stream configuration and content filter.
- `Preview`: `MetalView` and `CapturePreview`, grid and encoded commands.
- `Recorder`: the `ScreenRecorder` class.

## Model

| member | source | states |
|---|---|---|
| Common.First | Visor/ScreenRecorder.swift:225-230 | `first` is None exactly for the empty list, otherwise the element at index 0 |
| Common.Filter | Visor/ScreenRecorder.swift:241-243 | `filter` keeps only elements satisfying the predicate, never grows the list, and keeps each satisfying element exactly as often as the input holds it |
| Common.IntRoundTrip | Visor/ScreenRecorder.swift:264 | the decimal text of an integer, as string interpolation writes it, reads back as that integer |
| Catalog.InsertByAppName | Visor/ScreenRecorder.swift:239 | inserting a window into a list sorted by application name gives a sorted list holding the same windows plus the new one |
| Catalog.SortByAppName | Visor/ScreenRecorder.swift:239 | the sort step yields a permutation of its input, ascending by owning-application name with a missing owner sorting as "" |
| Catalog.FilterKeepsSorted | Visor/ScreenRecorder.swift:239-243 | dropping windows from a list sorted by application name leaves it sorted |
| Catalog.FilterWindows | Visor/ScreenRecorder.swift:236-244 | the window list is sorted by application name; every listed window has an owning application with a non-empty name and a bundle id other than the app's own; each such input window is kept exactly as often as it occurs, and every other window is dropped |
| Catalog.FilterChainProperties | Visor/ScreenRecorder.swift:236-244 | the sort and the two filters together give a sorted list of exactly the listed windows of the input |
| Catalog.FilterWindowsOnItsOutput | Visor/ScreenRecorder.swift:236-244 | running the window policy on its own output drops nothing and stays sorted (no claim about the order of equal names) |
| Catalog.WindowDisplayName | Visor/ScreenRecorder.swift:248-259 | the window text is empty exactly when there is neither an owning application nor a non-empty title; its four cases are characterised by `WindowDisplayNameCases` |
| Catalog.WindowDisplayNameCases | Visor/ScreenRecorder.swift:248-259 | the window text is empty exactly when there is neither owner nor (non-empty) title; with an owner it is `"<name>: "` followed by the title, or by `NatToDecimal` of the window id, the shortest numeral with no leading zero, which reads back as the id; without an owner it is the title |
| Catalog.WindowDisplayNameExamples | Visor/ScreenRecorder.swift:248-259 | the four cases on concrete windows: "Mail: Inbox", "Mail: 42", "Untitled", "" |
| Catalog.DisplayLabel | Visor/ScreenRecorder.swift:262-265 | the display text starts with `"Display: "`; that it records exactly the width and height is `DisplayLabelRoundTrip` |
| Catalog.DisplayLabelRoundTrip | Visor/ScreenRecorder.swift:262-265 | reading the display text back yields the width and height |
| Catalog.DisplayLabelCanonical | Visor/ScreenRecorder.swift:262-265 | any text that reads back as a width and height is exactly `"Display: <width> x <height>"` with shortest numerals, so together with the round trip the display text is the unique text of that size |
| Common.ParseIntCanonical | Visor/ScreenRecorder.swift:264 | any text the integer reader accepts is exactly the text interpolation writes for its value: no padding, no "-0" |
| Common.ParseDecimalCanonical | Visor/ScreenRecorder.swift:255 | any numeral the decimal reader accepts is exactly `NatToDecimal` of its value |
| StreamSettings.StreamConfiguration | Visor/ScreenRecorder.swift:180-209 | no audio, 1/60 s frame interval, queue depth 5, BGRA; a display target reads the rectangle (0, topSpace, width, height − topSpace) without clamping and outputs it times the scale, cursor hidden; a window target outputs the window's size with the cursor shown; a missing target leaves size and rectangle unset |
| StreamSettings.MakeContentFilter | Visor/ScreenRecorder.swift:143-178 | the filter fails exactly when the capture type's target is missing: display type halts with the permission exit, window type with the fatal error; a window target gives a single-window filter; a display target gives a display filter with no excepted windows whose excluded apps are empty when exclusion is off and otherwise exactly the available apps whose bundle id is the app's own |
| Preview.GroupsAlong | Visor/Views/CapturePreview.swift:118-120 | the group count along one axis is the ceiling of extent / 16: it covers the extent and one group fewer would not |
| Preview.ThreadGroups | Visor/Views/CapturePreview.swift:118-121 | the grid covers the texture's width and height with 16 x 16 groups, without an extra group on either axis, depth 1; with no texture it is 1 x 1 x 1 |
| Preview.ThreadGroupsExample | Visor/Views/CapturePreview.swift:118-121 | a 1000 x 700 texture gives a 63 x 44 x 1 grid |
| Preview.MetalView.constructor | Visor/Views/CapturePreview.swift:51-70 | a view made with a device has the command queue if it could be made, the built-in library if it compiled, and its pipeline only if that too was created; no texture yet |
| Preview.MetalView.UpdateShader | Visor/Views/CapturePreview.swift:72-84 | without a device, an unreadable file or a failed compile nothing changes; a compiled library is always stored; the pipeline changes only when reading, compiling and pipeline creation all succeed, so a failed pipeline leaves a new library beside the old pipeline |
| Preview.MetalView.UpdateTexture | Visor/Views/CapturePreview.swift:86-102 | with a device the drawable takes the surface's size even when texture creation fails; the texture is replaced only on success and kept otherwise; without a device nothing changes |
| Preview.MetalView.Draw | Visor/Views/CapturePreview.swift:104-128 | with no command buffer, drawable or encoder nothing is encoded; otherwise the encoded commands dispatch exactly once, with the current pipeline, the current texture at index 0, the drawable at index 1 and the grid of `ThreadGroups`; encoding ends, the drawable is presented and the buffer committed |
| Preview.RunDrawPass | Visor/Views/CapturePreview.swift:114-127 | the command sequence `draw` encodes produces one dispatch record with the bound pipeline and both texture slots, and one present before the commit |
| Preview.CapturePreview.constructor | Visor/Views/CapturePreview.swift:18-23 | the preview owns a freshly made Metal view with a device: command queue, built-in library and pipeline each present only if made, no texture, drawable size 0 x 0, no redraw requested |
| Preview.CapturePreview.UpdateFrame | Visor/Views/CapturePreview.swift:31-34 | the frame's surface (assumed present) is bound as by `UpdateTexture`, and a redraw is requested |
| Preview.LatestWins | Visor/Views/CapturePreview.swift:86-102 | after a run of frames the bound texture is the one made from the last frame whose texture could be made, or the earlier texture if none could |
| Recorder.ScreenRecorder.constructor | Visor/ScreenRecorder.swift:16-61 | the initial state: crop offset 40, not running, display capture, nothing selected, own app excluded, content size 1 x 1, empty catalog, not set up, no engine calls; the preview's view has a device, the command queue, built-in library and pipeline each present only if made, no texture, a 0 x 0 drawable and no redraw requested |
| Recorder.ScreenRecorder.UpdateEngine | Visor/ScreenRecorder.swift:135-140 | when not running nothing happens; when running the engine gets the current configuration and filter, or the process halts if the filter cannot be built |
| Recorder.ScreenRecorder.SetCaptureType | Visor/ScreenRecorder.swift:30-32 | the capture type is set, then the engine is updated as by `UpdateEngine`; while the process is alive, the capturing-implies-target invariant holds |
| Recorder.ScreenRecorder.SetSelectedDisplay | Visor/ScreenRecorder.swift:34-36 | the display selection is set, then the engine is updated; the invariant holds while alive |
| Recorder.ScreenRecorder.SetSelectedWindow | Visor/ScreenRecorder.swift:38-40 | the window selection is set, then the engine is updated; the invariant holds while alive |
| Recorder.ScreenRecorder.SetAppExcluded | Visor/ScreenRecorder.swift:42-44 | the exclusion flag is set, then the engine is updated; the invariant holds while alive |
| Recorder.ScreenRecorder.SetTopSpace | Visor/ScreenRecorder.swift:16 | the crop offset is set and nothing is sent to the engine (it has no observer) |
| Recorder.ScreenRecorder.RefreshAvailableContent | Visor/ScreenRecorder.swift:212-234 | an enumeration error changes nothing; otherwise displays and apps are replaced, windows pass through the window policy, and each selection is filled with the first entry only when empty; a running engine is updated only when a selection was filled |
| Recorder.ScreenRecorder.StoreContent | Visor/ScreenRecorder.swift:217-223 | the three catalog lists become the enumerated displays, the filtered windows and the enumerated apps |
| Recorder.ScreenRecorder.FillEmptySelections | Visor/ScreenRecorder.swift:225-230 | an existing selection is never overwritten; an empty one becomes the first available entry, and each fill notifies a running engine |
| Recorder.ScreenRecorder.MonitorAvailableContent | Visor/ScreenRecorder.swift:82-93 | once set up it changes nothing; otherwise it refreshes the catalog and registers one periodic refresh; a running engine is updated only when the refresh filled an empty selection |
| Recorder.ScreenRecorder.Start | Visor/ScreenRecorder.swift:96-125 | when already running nothing changes. Otherwise: content monitoring is set up on the first start only; a missing target halts before capture; else the engine is started with the current configuration and filter, every frame is bound in order (latest texture wins, the drawable and the content size follow the last frame, a redraw has been requested once a frame arrived), and the session stays running exactly when the stream ends without error |
| Recorder.ScreenRecorder.StartIdle | Visor/ScreenRecorder.swift:100-124 | `start` past its guard: monitoring is set up on the first start only; a missing target halts before capture with the engine, content size and view untouched; otherwise one start call with the current configuration and filter, frames bound as `FramesBound` states, running exactly on a clean finish |
| Recorder.ScreenRecorder.SetUpMonitoring | Visor/ScreenRecorder.swift:100-104 | the first start refreshes the catalog and marks it set up; later starts leave the catalog alone |
| Recorder.ScreenRecorder.BeginCapture | Visor/ScreenRecorder.swift:106-124 | the filter is built before the running flag is set: a missing target halts with nothing started; otherwise the engine is started and the frames are bound as `FramesBound` states |
| Recorder.ScreenRecorder.RunSession | Visor/ScreenRecorder.swift:110-124 | one start call reaches the engine; the running flag ends true exactly when the stream finishes without error; the frames are bound as `FramesBound` states |
| Recorder.ScreenRecorder.ReceiveFrames | Visor/ScreenRecorder.swift:112-119 | each frame is bound in turn: with a device the texture is the one `TextureAfter` gives and the drawable has the last frame's surface size (both untouched without a device); the content size is the last frame's; a redraw has been requested exactly when a frame arrived or one already had been; an empty stream changes nothing |
| Recorder.ScreenRecorder.Stop | Visor/ScreenRecorder.swift:128-132 | when not running nothing happens; otherwise the engine is stopped once and the session is no longer running |

## Left out

- ScreenCaptureKit enumeration and the capture engine's frame stream are inputs. The engine's own code (`CaptureEngine`) is not part of this model.
- The 3-second refresh timer and the `Task` behind `updateEngine` are modelled as one registered timer (`refreshTimers`) and as a synchronous call. Later timer ticks are separate calls to `RefreshAvailableContent`. Interleavings of these tasks with a running `start` are not modelled.
- The backing scale factor is a whole-number constant, fixed when the recorder is made. Its fallback of 2 when there is no main screen is not modelled.
- Window frames are whole numbers, already truncated from floating point. The content size is an integer pair.
- `canRecord`/`isUnauthorized` and the floating panel manager are UI and permission plumbing, so they are not modelled. The app's other views and app entry are not modelled either.
- `capturePreview` is a `lazy var` built on first access; the model builds it, with its view's device, queue, library and pipeline, in the recorder's constructor. No state difference between the two is observable in the model.
- The `NSAlert` text and `exit(0)` are modelled only as the `PermissionAlertExit` outcome. `fatalError` is the `NoWindowSelected` outcome.
- Swift's string `<` is taken as plain lexicographic order on characters. Unicode normalisation and grapheme clustering are not modelled.
- Catalog.SortByAppName is an insertion sort. Only "sorted and a permutation" is claimed for it, because the platform's `sorted` is not documented to be stable.
- The Metal kernel source and GPU execution are not modelled, and the `.zero` frame is modelled only as an initial 0 x 0 drawable. Texture creation, library compilation, pipeline creation and command-buffer, drawable and encoder availability are success or failure flags.
- `CapturePreview.init` and `MetalView.init(coder:)` without a device end in `fatalError`, and are not modelled. The views are always made with a device.
- Preview.MetalView.UpdateShader requires a compiled library to define `computeShader`. Without it, the source force-unwraps a missing function and traps.
- Preview.MetalView.Draw requires a pipeline whenever the guard passes. The source reads an implicitly unwrapped pipeline there.
- Preview.CapturePreview.UpdateFrame requires the frame's surface to be present. The source force-unwraps it.
- Recorder.ScreenRecorder.Start consumes the whole frame stream in one step. `Stop` and the setters can act only before `Start` or after the stream has ended, so a reconfiguration followed by more frames of the same session cannot be expressed. A stream that ends without error leaves `isRunning` true; in the app such a stream typically ends because `stop` has already cleared the flag.
- StreamSettings.StreamConfiguration does not model Swift's trap on `Int` overflow, because the model's `int` is unbounded. With a crop offset near the `Int` limits (it is any integer typed into the settings field), `display.height - topSpace` or its product with the scale factor traps in the app, where the model returns a configuration.
- `topSpace` has no `didSet` observer, unlike `captureType`, `selectedDisplay`, `selectedWindow` and `isAppExcluded` (Visor/ScreenRecorder.swift:16, 30-44), so `SetTopSpace` does not call `UpdateEngine`, and a new crop offset reaches a running engine only with the next update made for another reason.

=== FILE: capture_preview.dfy ===
/** The render side: `MetalView`, which keeps the latest captured frame as a
    texture and the compute pipeline built from the current shader, and
    `CapturePreview`, which hands each captured frame to it. Texture
    creation, shader compilation, pipeline creation and the availability of a
    command buffer, drawable and encoder are outcomes supplied by the caller. */
module Preview {
  import opened Common

  /** An `IOSurface` backing one frame, with its size in pixels. */
  datatype Surface = Surface(surfaceId: nat, width: nat, height: nat)

  /** A BGRA texture that views a surface without copying it; its size is the
      surface's. */
  datatype Texture = Texture(surfaceId: nat, width: nat, height: nat)

  function TextureOver(s: Surface): Texture {
    Texture(s.surfaceId, s.width, s.height)
  }

  function SurfaceSize(s: Surface): Size {
    Size(s.width, s.height)
  }

  /** A compiled shader library: the source it was built from and the names
      of the functions it defines. */
  datatype Library = Library(source: string, functions: set<string>)

  /** A compute pipeline for one function of one library. */
  datatype Pipeline = Pipeline(library: Library, kernel: string)

  datatype Size = Size(width: int, height: int)

  /** A frame delivered by the capture engine: its surface (which the
      delivery code unwraps unconditionally) and its content size. */
  datatype CapturedFrame = CapturedFrame(surface: Option<Surface>, size: Size)

  /** The kernel every shader must define. */
  const KernelName: string := "computeShader"

  // ---------------------------------------------------------------------------
  // Dispatch geometry

  datatype GridSize = GridSize(width: int, height: int, depth: int)

  /** Threads per threadgroup along each of the two image axes. */
  const GroupEdge: nat := 16

  const ThreadsPerGroup: GridSize := GridSize(GroupEdge, GroupEdge, 1)

  /** Ceiling division by the group edge: the fewest groups that cover
      `extent` pixels. */
  function GroupsAlong(extent: nat): (n: nat)
    ensures n * GroupEdge >= extent
    ensures (n - 1) * GroupEdge < extent
  {
    (extent + GroupEdge - 1) / GroupEdge
  }

  /** The threadgroup grid for the bound texture; without a texture both
      extents count as 1. */
  function ThreadGroups(t: Option<Texture>): (g: GridSize)
    ensures g.depth == 1
    ensures t.Some? ==> g.width * GroupEdge >= t.value.width && (g.width - 1) * GroupEdge < t.value.width
    ensures t.Some? ==> g.height * GroupEdge >= t.value.height && (g.height - 1) * GroupEdge < t.value.height
    ensures t.None? ==> g == GridSize(1, 1, 1)
  {
    var w := if t.Some? then t.value.width else 1;
    var h := if t.Some? then t.value.height else 1;
    GridSize(GroupsAlong(w), GroupsAlong(h), 1)
  }

  /** A 1000 x 700 texture needs a 63 x 44 grid of 16 x 16 groups. */
  lemma ThreadGroupsExample()
    ensures ThreadGroups(Some(Texture(0, 1000, 700))) == GridSize(63, 44, 1)
  {
  }

  // ---------------------------------------------------------------------------
  // Encoded GPU work

  /** What a texture slot of the compute encoder is bound to. */
  datatype BoundTexture = CapturedTexture(texture: Texture) | DrawableTexture(drawableId: nat) | NoTexture

  /** The calls `draw` makes on the command buffer and its compute encoder. */
  datatype Command =
    | SetPipeline(pipeline: Pipeline)
    | SetTexture(bound: BoundTexture, index: nat)
    | Dispatch(groups: GridSize, perGroup: GridSize)
    | EndEncoding
    | Present(drawableId: nat)
    | Commit

  /** One compute dispatch as the GPU sees it: the pipeline and the textures
      bound at indices 0 and 1 when it was encoded. */
  datatype DispatchRecord = DispatchRecord(
    pipeline: Option<Pipeline>,
    input: Option<BoundTexture>,
    output: Option<BoundTexture>,
    groups: GridSize,
    perGroup: GridSize)

  /** The effect of a command list: encoder state while encoding, and what
      reaches the GPU. A dispatch counts only while encoding is open; a present
      counts only before the commit. */
  datatype GpuWork = GpuWork(
    pipeline: Option<Pipeline>,
    slots: map<nat, BoundTexture>,
    encoding: bool,
    committed: bool,
    dispatches: seq<DispatchRecord>,
    presented: seq<nat>)

  const NoWork: GpuWork := GpuWork(None, map[], true, false, [], [])

  function Slot(w: GpuWork, index: nat): Option<BoundTexture> {
    if index in w.slots then Some(w.slots[index]) else None
  }

  function Step(w: GpuWork, c: Command): GpuWork {
    match c
    case SetPipeline(p) => if w.encoding then w.(pipeline := Some(p)) else w
    case SetTexture(b, i) => if w.encoding then w.(slots := w.slots[i := b]) else w
    case Dispatch(g, t) =>
      if w.encoding then w.(dispatches := w.dispatches + [DispatchRecord(w.pipeline, Slot(w, 0), Slot(w, 1), g, t)])
      else w
    case EndEncoding => w.(encoding := false)
    case Present(d) => if w.committed then w else w.(presented := w.presented + [d])
    case Commit => w.(committed := true)
  }

  function Run(w: GpuWork, cmds: seq<Command>): GpuWork
    decreases |cmds|
  {
    if |cmds| == 0 then w else Run(Step(w, cmds[0]), cmds[1..])
  }

  // ---------------------------------------------------------------------------
  // MetalView

  class MetalView {
    /** Whether the view still has a Metal device. */
    var hasDevice: bool
    /** Whether the command queue was created. */
    var hasCommandQueue: bool
    var shaderLibrary: Option<Library>
    var texture: Option<Texture>
    var pipelineState: Option<Pipeline>
    var drawableSize: Size
    /** Set by `setNeedsDisplay`: a redraw has been requested. The display
        cycle that clears it is not part of the model, so the flag records that
        a redraw was ever requested. */
    var needsDisplay: bool

    /** `init(frame: .zero, device:)` with a device: create the command queue,
        compile the built-in shader and build its pipeline; a failure leaves
        the library or pipeline unset. */
    constructor (commandQueueMade: bool, defaultLibrary: Option<Library>, pipelineMade: bool)
      requires defaultLibrary.Some? ==> KernelName in defaultLibrary.value.functions
      ensures hasDevice && hasCommandQueue == commandQueueMade
      ensures shaderLibrary == defaultLibrary
      ensures pipelineState == if defaultLibrary.Some? && pipelineMade then Some(Pipeline(defaultLibrary.value, KernelName)) else None
      ensures texture.None? && drawableSize == Size(0, 0) && !needsDisplay
    {
      hasDevice := true;
      hasCommandQueue := commandQueueMade;
      texture := None;
      drawableSize := Size(0, 0);
      needsDisplay := false;
      shaderLibrary := None;
      pipelineState := None;
      if defaultLibrary.Some? {
        shaderLibrary := defaultLibrary;
        if pipelineMade {
          pipelineState := Some(Pipeline(defaultLibrary.value, KernelName));
        }
      }
    }

    /** Hot-swaps the shader: read the file, compile it, build the pipeline.
        `contents` is the file's text (None: it could not be read), `compile`
        the compiler, `pipelineMade` whether pipeline creation succeeds. Each
        step that fails ends the update, so the running pipeline is replaced
        only when all three succeed. */
    method UpdateShader(contents: Option<string>, compile: string -> Option<Library>, pipelineMade: bool)
      requires contents.Some? && compile(contents.value).Some? ==> KernelName in compile(contents.value).value.functions
      modifies this`shaderLibrary, this`pipelineState
      ensures !hasDevice || contents.None? || compile(contents.value).None? ==>
        shaderLibrary == old(shaderLibrary) && pipelineState == old(pipelineState)
      ensures hasDevice && contents.Some? && compile(contents.value).Some? ==>
        && shaderLibrary == compile(contents.value)
        && pipelineState == (if pipelineMade then Some(Pipeline(shaderLibrary.value, KernelName)) else old(pipelineState))
      ensures pipelineState != old(pipelineState) ==>
        hasDevice && contents.Some? && compile(contents.value).Some? && pipelineMade
    {
      if !hasDevice {
        return;
      }
      if contents.None? {
        return;
      }
      var library := compile(contents.value);
      if library.None? {
        return;
      }
      shaderLibrary := library;
      if !pipelineMade {
        return;
      }
      pipelineState := Some(Pipeline(library.value, KernelName));
    }

    /** Binds a new frame: resize the drawable to the surface, then make a
        texture over the surface (`textureMade`: whether that succeeds). On
        failure the previous texture stays. */
    method UpdateTexture(surface: Surface, textureMade: bool)
      modifies this`texture, this`drawableSize
      ensures !hasDevice ==> texture == old(texture) && drawableSize == old(drawableSize)
      ensures hasDevice ==> drawableSize == Size(surface.width, surface.height)
      ensures hasDevice ==> texture == if textureMade then Some(TextureOver(surface)) else old(texture)
    {
      if !hasDevice {
        return;
      }
      drawableSize := Size(surface.width, surface.height);
      if !textureMade {
        return;
      }
      texture := Some(TextureOver(surface));
    }

    /** Whether `draw` gets past its guard: a command queue that yields a
        command buffer, a current drawable, and a compute encoder. */
    predicate CanEncode(commandBufferMade: bool, drawable: Option<nat>, encoderMade: bool)
      reads this
    {
      hasCommandQueue && commandBufferMade && drawable.Some? && encoderMade
    }

    /** One redraw. Without a command buffer, drawable or encoder nothing is
        encoded; otherwise the current pipeline runs exactly once over a grid
        that covers the current texture, reading it at index 0 and writing the
        drawable at index 1, and the drawable is presented. The pipeline is
        unwrapped unconditionally once the guard passes. */
    method Draw(commandBufferMade: bool, drawable: Option<nat>, encoderMade: bool) returns (cmds: seq<Command>)
      requires CanEncode(commandBufferMade, drawable, encoderMade) ==> pipelineState.Some?
      ensures !CanEncode(commandBufferMade, drawable, encoderMade) ==> cmds == []
      ensures CanEncode(commandBufferMade, drawable, encoderMade) ==>
        var work := Run(NoWork, cmds);
        var input := if texture.Some? then CapturedTexture(texture.value) else NoTexture;
        && work.dispatches == [DispatchRecord(pipelineState, Some(input), Some(DrawableTexture(drawable.value)),
                                              ThreadGroups(texture), ThreadsPerGroup)]
        && work.presented == [drawable.value]
        && !work.encoding && work.committed
    {
      if !CanEncode(commandBufferMade, drawable, encoderMade) {
        return [];
      }
      var input := if texture.Some? then CapturedTexture(texture.value) else NoTexture;
      var groups := ThreadGroups(texture);
      cmds := [
        SetPipeline(pipelineState.value),
        SetTexture(input, 0),
        SetTexture(DrawableTexture(drawable.value), 1),
        Dispatch(groups, ThreadsPerGroup),
        EndEncoding,
        Present(drawable.value),
        Commit
      ];
      RunDrawPass(pipelineState.value, input, drawable.value, groups);
    }
  }

  /** The command list `draw` encodes has the effect stated by `Draw`. */
  lemma RunDrawPass(p: Pipeline, input: BoundTexture, drawableId: nat, groups: GridSize)
    ensures var work := Run(NoWork, [SetPipeline(p), SetTexture(input, 0), SetTexture(DrawableTexture(drawableId), 1),
                                     Dispatch(groups, ThreadsPerGroup), EndEncoding, Present(drawableId), Commit]);
            && work.dispatches == [DispatchRecord(Some(p), Some(input), Some(DrawableTexture(drawableId)), groups, ThreadsPerGroup)]
            && work.presented == [drawableId]
            && !work.encoding && work.committed
  {
    var cmds := [SetPipeline(p), SetTexture(input, 0), SetTexture(DrawableTexture(drawableId), 1),
                 Dispatch(groups, ThreadsPerGroup), EndEncoding, Present(drawableId), Commit];
    var w1 := Step(NoWork, cmds[0]);
    var w2 := Step(w1, cmds[1]);
    var w3 := Step(w2, cmds[2]);
    var w4 := Step(w3, cmds[3]);
    var w5 := Step(w4, cmds[4]);
    var w6 := Step(w5, cmds[5]);
    var w7 := Step(w6, cmds[6]);
    assert Slot(w3, 0) == Some(input);
    assert Slot(w3, 1) == Some(DrawableTexture(drawableId));
    assert Run(w7, cmds[7..]) == w7;
    assert Run(w6, cmds[6..]) == w7;
    assert Run(w5, cmds[5..]) == w7;
    assert Run(w4, cmds[4..]) == w7;
    assert Run(w3, cmds[3..]) == w7;
    assert Run(w2, cmds[2..]) == w7;
    assert Run(w1, cmds[1..]) == w7;
  }

  // ---------------------------------------------------------------------------
  // CapturePreview

  class CapturePreview {
    const metalView: MetalView

    /** `CapturePreview.init`, given a device. */
    constructor (commandQueueMade: bool, defaultLibrary: Option<Library>, pipelineMade: bool)
      requires defaultLibrary.Some? ==> KernelName in defaultLibrary.value.functions
      ensures fresh(metalView)
      ensures metalView.hasDevice && metalView.hasCommandQueue == commandQueueMade
      ensures metalView.shaderLibrary == defaultLibrary
      ensures metalView.pipelineState == if defaultLibrary.Some? && pipelineMade then Some(Pipeline(defaultLibrary.value, KernelName)) else None
      ensures metalView.texture.None? && metalView.drawableSize == Size(0, 0) && !metalView.needsDisplay
    {
      metalView := new MetalView(commandQueueMade, defaultLibrary, pipelineMade);
    }

    /** Binds a delivered frame's surface and requests a redraw. */
    method UpdateFrame(frame: CapturedFrame, textureMade: bool)
      requires frame.surface.Some?
      modifies metalView`texture, metalView`drawableSize, metalView`needsDisplay
      ensures metalView.needsDisplay
      ensures !metalView.hasDevice ==> metalView.texture == old(metalView.texture) && metalView.drawableSize == old(metalView.drawableSize)
      ensures metalView.hasDevice ==> metalView.drawableSize == Size(frame.surface.value.width, frame.surface.value.height)
      ensures metalView.hasDevice ==>
        metalView.texture == if textureMade then Some(TextureOver(frame.surface.value)) else old(metalView.texture)
    {
      metalView.UpdateTexture(frame.surface.value, textureMade);
      metalView.needsDisplay := true;
    }
  }

  // ---------------------------------------------------------------------------
  // Latest wins

  /** A frame together with whether a texture could be made over its surface. */
  datatype Delivery = Delivery(frame: CapturedFrame, textureMade: bool)

  predicate AllHaveSurfaces(ds: seq<Delivery>) {
    forall k :: 0 <= k < |ds| ==> ds[k].frame.surface.Some?
  }

  /** The texture bound after binding each delivery in turn, starting from `t`. */
  function TextureAfter(t: Option<Texture>, ds: seq<Delivery>): Option<Texture>
    requires AllHaveSurfaces(ds)
  {
    if |ds| == 0 then t
    else
      var last := ds[|ds| - 1];
      if last.textureMade then Some(TextureOver(last.frame.surface.value)) else TextureAfter(t, ds[..|ds| - 1])
  }

  /** The view's state after each delivery was handed to `UpdateFrame` in
      turn: with a device, the texture is `TextureAfter` and the drawable has
      the last frame's surface size; without one both are untouched; a redraw
      has been requested once any frame arrived. */
  twostate predicate FramesBound(view: MetalView, ds: seq<Delivery>)
    requires AllHaveSurfaces(ds)
    reads view
  {
    && view.texture == (if view.hasDevice then TextureAfter(old(view.texture), ds) else old(view.texture))
    && view.drawableSize == (if view.hasDevice && |ds| > 0 then SurfaceSize(ds[|ds| - 1].frame.surface.value)
                             else old(view.drawableSize))
    && view.needsDisplay == (|ds| > 0 || old(view.needsDisplay))
  }

  /** Delivery `k` is the last one whose texture could be made. */
  predicate LastMade(ds: seq<Delivery>, k: int) {
    0 <= k < |ds| && ds[k].textureMade && forall j :: k < j < |ds| ==> !ds[j].textureMade
  }

  /** Latest wins: after a run of frames the bound texture is the one made
      from the last frame whose texture could be made, and if none could, the
      texture bound before the run. */
  lemma {:induction false} LatestWins(t: Option<Texture>, ds: seq<Delivery>)
    requires AllHaveSurfaces(ds)
    ensures forall k :: LastMade(ds, k) ==> TextureAfter(t, ds) == Some(TextureOver(ds[k].frame.surface.value))
    ensures (forall k :: 0 <= k < |ds| ==> !ds[k].textureMade) ==> TextureAfter(t, ds) == t
  {
    if |ds| > 0 {
      var init := ds[..|ds| - 1];
      LatestWins(t, init);
      forall k | LastMade(ds, k)
        ensures TextureAfter(t, ds) == Some(TextureOver(ds[k].frame.surface.value))
      {
        if k < |ds| - 1 {
          assert LastMade(init, k);
        }
      }
    }
  }
}

=== FILE: catalog.dfy ===
/** The capture-target catalog: the records ScreenCaptureKit hands back
    (running applications, displays, windows), the policy that filters and
    orders the window list, and the labels shown for displays and windows. */
module Catalog {
  import opened Common

  /** A running application (`SCRunningApplication`). */
  datatype App = App(name: string, bundleId: string)

  /** A display (`SCDisplay`), with its size in points. */
  datatype Display = Display(displayId: nat, width: int, height: int)

  /** A window (`SCWindow`). `width` and `height` are its frame size already
      truncated to whole points, as the stream configuration reads them. */
  datatype Window = Window(windowId: nat, owner: Option<App>, title: Option<string>, width: int, height: int)

  // ---------------------------------------------------------------------------
  // Window filtering and ordering

  /** The sort key: the owning application's name, or "" without one. */
  function AppNameKey(w: Window): string {
    match w.owner
    case Some(app) => app.name
    case None => ""
  }

  /** Ascending by owning-application name. Nothing is said about the order of
      windows whose application names are equal. */
  ghost predicate SortedByAppName(ws: seq<Window>) {
    forall i, j :: 0 <= i < j < |ws| ==> StrLessEq(AppNameKey(ws[i]), AppNameKey(ws[j]))
  }

  /** The window has an owning application, and its name is not empty. */
  predicate HasNamedOwner(w: Window) {
    w.owner != None && (if w.owner.Some? then Some(w.owner.value.name) else None) != Some("")
  }

  /** The window's owning-application bundle identifier differs from the
      capturing app's own one (`ownBundleId`, which may be missing). */
  predicate NotOwnApp(w: Window, ownBundleId: Option<string>) {
    (if w.owner.Some? then Some(w.owner.value.bundleId) else None) != ownBundleId
  }

  /** Both filters of the catalog policy, stated on their own. */
  predicate Listed(w: Window, ownBundleId: Option<string>) {
    && w.owner.Some?
    && w.owner.value.name != ""
    && Some(w.owner.value.bundleId) != ownBundleId
  }

  /** A window that is no later than every element of a sorted list can
      be put in front of it. */
  lemma PrependSorted(w: Window, ws: seq<Window>)
    requires SortedByAppName(ws)
    requires forall k :: 0 <= k < |ws| ==> StrLessEq(AppNameKey(w), AppNameKey(ws[k]))
    ensures SortedByAppName([w] + ws)
  {
    var r := [w] + ws;
    forall i, j | 0 <= i < j < |r|
      ensures StrLessEq(AppNameKey(r[i]), AppNameKey(r[j]))
    {
      if i > 0 {
        assert r[i] == ws[i - 1] && r[j] == ws[j - 1];
      } else {
        assert r[j] == ws[j - 1];
      }
    }
  }

  /** An element counted in a sequence's multiset sits at some index. */
  lemma IndexOf(ws: seq<Window>, w: Window) returns (k: nat)
    requires w in multiset(ws)
    ensures k < |ws| && ws[k] == w
  {
    k :| 0 <= k < |ws| && ws[k] == w;
  }

  /** Places `w` into a list that is already in ascending order. */
  function InsertByAppName(w: Window, ws: seq<Window>): (r: seq<Window>)
    requires SortedByAppName(ws)
    ensures multiset(r) == multiset(ws) + multiset{w}
    ensures SortedByAppName(r)
  {
    if |ws| == 0 then [w]
    else if StrLess(AppNameKey(ws[0]), AppNameKey(w)) then
      var rest := InsertByAppName(w, ws[1..]);
      InsertAfterHead(w, ws, rest);
      [ws[0]] + rest
    else
      InsertBeforeHead(w, ws);
      [w] + ws
  }

  lemma InsertAfterHead(w: Window, ws: seq<Window>, rest: seq<Window>)
    requires SortedByAppName(ws) && |ws| > 0
    requires StrLess(AppNameKey(ws[0]), AppNameKey(w))
    requires multiset(rest) == multiset(ws[1..]) + multiset{w}
    requires SortedByAppName(rest)
    ensures multiset([ws[0]] + rest) == multiset(ws) + multiset{w}
    ensures SortedByAppName([ws[0]] + rest)
  {
    assert ws == [ws[0]] + ws[1..];
    forall k | 0 <= k < |rest|
      ensures StrLessEq(AppNameKey(ws[0]), AppNameKey(rest[k]))
    {
      assert rest[k] in multiset(rest);
      if rest[k] == w {
        StrLessAsymmetric(AppNameKey(ws[0]), AppNameKey(w));
      } else {
        var j := IndexOf(ws[1..], rest[k]);
        assert ws[j + 1] == rest[k];
      }
    }
    PrependSorted(ws[0], rest);
  }

  lemma InsertBeforeHead(w: Window, ws: seq<Window>)
    requires SortedByAppName(ws) && |ws| > 0
    requires !StrLess(AppNameKey(ws[0]), AppNameKey(w))
    ensures SortedByAppName([w] + ws)
  {
    forall k | 0 <= k < |ws|
      ensures StrLessEq(AppNameKey(w), AppNameKey(ws[k]))
    {
      if k > 0 {
        StrLessEqTransitive(AppNameKey(w), AppNameKey(ws[0]), AppNameKey(ws[k]));
      }
    }
    PrependSorted(w, ws);
  }

  /** Ascending order of owning-application names, as the comparator
      `name(a) < name(b)` sorts. */
  function SortByAppName(ws: seq<Window>): (r: seq<Window>)
    ensures multiset(r) == multiset(ws)
    ensures SortedByAppName(r)
  {
    if |ws| == 0 then []
    else
      assert ws == [ws[0]] + ws[1..];
      InsertByAppName(ws[0], SortByAppName(ws[1..]))
  }

  /** Keeping a subsequence keeps the order. */
  lemma {:induction false} FilterKeepsSorted(ws: seq<Window>, p: Window -> bool)
    requires SortedByAppName(ws)
    ensures SortedByAppName(Filter(ws, p))
  {
    if |ws| > 0 {
      FilterKeepsSorted(ws[1..], p);
      var rest := Filter(ws[1..], p);
      forall k | 0 <= k < |rest|
        ensures StrLessEq(AppNameKey(ws[0]), AppNameKey(rest[k]))
      {
        assert rest[k] in multiset(rest);
        var j := IndexOf(ws[1..], rest[k]);
        assert ws[j + 1] == rest[k];
      }
      PrependSorted(ws[0], rest);
    }
  }

  /** The window list offered for capture: sorted by owning-application name,
      then windows without a named owning application are dropped, then the
      capturing app's own windows are dropped. */
  function FilterWindows(ws: seq<Window>, ownBundleId: Option<string>): (r: seq<Window>)
    ensures SortedByAppName(r)
    ensures forall k :: 0 <= k < |r| ==> Listed(r[k], ownBundleId)
    ensures forall w :: multiset(r)[w] == if Listed(w, ownBundleId) then multiset(ws)[w] else 0
    ensures |r| <= |ws|
  {
    var r := Filter(Filter(SortByAppName(ws), HasNamedOwner), w => NotOwnApp(w, ownBundleId));
    FilterChainProperties(ws, ownBundleId);
    r
  }

  /** The three steps of the window policy together keep exactly the listed
      windows, in ascending order. */
  lemma FilterChainProperties(ws: seq<Window>, ownBundleId: Option<string>)
    ensures var r := Filter(Filter(SortByAppName(ws), HasNamedOwner), w => NotOwnApp(w, ownBundleId));
      && SortedByAppName(r)
      && (forall k :: 0 <= k < |r| ==> Listed(r[k], ownBundleId))
      && (forall w :: multiset(r)[w] == if Listed(w, ownBundleId) then multiset(ws)[w] else 0)
      && |r| <= |ws|
  {
    var notOwn := w => NotOwnApp(w, ownBundleId);
    var sorted := SortByAppName(ws);
    var named := Filter(sorted, HasNamedOwner);
    var r := Filter(named, notOwn);
    FilterKeepsSorted(sorted, HasNamedOwner);
    FilterKeepsSorted(named, notOwn);
    forall w ensures multiset(r)[w] == if Listed(w, ownBundleId) then multiset(ws)[w] else 0 {
      assert Listed(w, ownBundleId) == (HasNamedOwner(w) && notOwn(w));
    }
  }

  /** Running the policy on its own output drops nothing and keeps the order. */
  lemma FilterWindowsOnItsOutput(ws: seq<Window>, ownBundleId: Option<string>)
    ensures var once := FilterWindows(ws, ownBundleId);
            var twice := FilterWindows(once, ownBundleId);
            multiset(twice) == multiset(once) && SortedByAppName(twice)
  {
  }

  // ---------------------------------------------------------------------------
  // Labels

  /** `SCWindow.displayName`. */
  function WindowDisplayName(w: Window): (text: string)
    ensures text == "" <==> w.owner.None? && (w.title.None? || w.title == Some(""))
  {
    match (w.owner, w.title)
    case (Some(app), Some(title)) => app.name + ": " + title
    case (None, Some(title)) => title
    case (Some(app), None) => app.name + ": " + NatToDecimal(w.windowId)
    case (None, None) => ""
  }

  /** `SCDisplay.displayName`. */
  function DisplayLabel(d: Display): (text: string)
    ensures |text| > 9 && text[..9] == "Display: "
  {
    "Display: " + IntToDecimal(d.width) + " x " + IntToDecimal(d.height)
  }

  /** What follows the `"<app name>: "` prefix of a window's text. */
  function LabelTail(w: Window, text: string): string
    requires w.owner.Some?
  {
    var n := |w.owner.value.name| + 2;
    if n <= |text| then text[n..] else ""
  }

  /** The window text is empty exactly when the window has no owning
      application and no (or an empty) title; with an owning application it
      starts with `"<app name>: "` followed by the title, or by the decimal
      window identifier when there is no title; without one it is the title. */
  lemma WindowDisplayNameCases(w: Window)
    ensures WindowDisplayName(w) == "" <==> w.owner.None? && (w.title.None? || w.title == Some(""))
    ensures w.owner.Some? ==>
      var prefix := w.owner.value.name + ": ";
      |prefix| <= |WindowDisplayName(w)| && WindowDisplayName(w)[..|prefix|] == prefix
    ensures w.owner.Some? && w.title.Some? ==> LabelTail(w, WindowDisplayName(w)) == w.title.value
    ensures w.owner.Some? && w.title.None? ==> LabelTail(w, WindowDisplayName(w)) == NatToDecimal(w.windowId)
    ensures w.owner.Some? && w.title.None? ==> ParseDecimal(LabelTail(w, WindowDisplayName(w))) == Some(w.windowId)
    ensures w.owner.None? && w.title.Some? ==> WindowDisplayName(w) == w.title.value
  {
    var text := WindowDisplayName(w);
    if w.owner.Some? {
      var prefix := w.owner.value.name + ": ";
      assert text[..|prefix|] == prefix;
      assert |text| >= 2 && text[|prefix| - 2] == ':';
      if w.title.None? {
        assert LabelTail(w, text) == NatToDecimal(w.windowId);
        DecimalRoundTrip(w.windowId);
      } else {
        assert LabelTail(w, text) == w.title.value;
      }
    }
  }

  /** The examples of the labelling rule: "Mail" + "Inbox", "Mail" + window 42
      without a title, a lone title "Untitled", and neither. */
  lemma WindowDisplayNameExamples()
    ensures WindowDisplayName(Window(7, Some(App("Mail", "com.apple.mail")), Some("Inbox"), 800, 600)) == "Mail: Inbox"
    ensures WindowDisplayName(Window(42, Some(App("Mail", "com.apple.mail")), None, 800, 600)) == "Mail: 42"
    ensures WindowDisplayName(Window(7, None, Some("Untitled"), 800, 600)) == "Untitled"
    ensures WindowDisplayName(Window(7, None, None, 800, 600)) == ""
  {
  }

  /** A sequence is the concatenation of its pieces between three cut points. */
  lemma JoinSlices<T>(s: seq<T>, i: nat, j: nat, k: nat)
    requires i <= j <= k <= |s|
    ensures s == s[..i] + s[i..j] + s[j..k] + s[k..]
  {
  }

  /** Splits a display text into the texts of its width and height: the
      width runs from the prefix to the first space. */
  function SplitDisplayLabel(s: string): (r: Option<(string, string)>)
    ensures r.Some? ==> s == "Display: " + r.value.0 + " x " + r.value.1
  {
    if |s| < 9 || s[..9] != "Display: " then None
    else
      match FindChar(s[9..], ' ')
      case None => None
      case Some(k) =>
        if |s| < k + 12 || s[k + 9..k + 12] != " x " then None
        else
          JoinSlices(s, 9, k + 9, k + 12);
          Some((s[9..k + 9], s[k + 12..]))
  }

  /** Reads a display text back into its width and height. */
  function ParseDisplayLabel(s: string): Option<(int, int)> {
    match SplitDisplayLabel(s)
    case None => None
    case Some((ws, hs)) =>
      match (ParseInt(ws), ParseInt(hs))
      case (Some(w), Some(h)) => Some((w, h))
      case _ => None
  }

  /** The display text records the display's width and height exactly:
      reading it back gives them again. */
  lemma DisplayLabelRoundTrip(d: Display)
    ensures ParseDisplayLabel(DisplayLabel(d)) == Some((d.width, d.height))
  {
    var ws, hs := IntToDecimal(d.width), IntToDecimal(d.height);
    SplitJoined(ws, hs);
    IntRoundTrip(d.width);
    IntRoundTrip(d.height);
  }

  /** Splitting a joined display text gives back its two parts, when the
      first has no space in it. */
  lemma SplitJoined(ws: string, hs: string)
    requires forall k :: 0 <= k < |ws| ==> ws[k] != ' '
    ensures SplitDisplayLabel("Display: " + ws + " x " + hs) == Some((ws, hs))
  {
    var text := "Display: " + ws + " x " + hs;
    var rest := ws + " x " + hs;
    assert text == "Display: " + rest;
    assert text[..9] == "Display: ";
    assert text[9..] == rest;
    assert rest[|ws|] == ' ';
    assert forall k :: 0 <= k < |ws| ==> rest[k] == ws[k];
    assert FindChar(rest, ' ') == Some(|ws|);
    assert text[|ws| + 9..|ws| + 12] == " x ";
    assert text[9..|ws| + 9] == ws;
    assert text[|ws| + 12..] == hs;
  }

  /** The display text is the only text that reads back as a given width and
      height: any text `ParseDisplayLabel` accepts is the `DisplayLabel` of
      the size it yields. */
  lemma DisplayLabelCanonical(s: string, d: Display)
    requires ParseDisplayLabel(s) == Some((d.width, d.height))
    ensures s == DisplayLabel(d)
  {
    var (ws, hs) := SplitDisplayLabel(s).value;
    ParseIntCanonical(ws, d.width);
    ParseIntCanonical(hs, d.height);
  }
}

=== FILE: common.dfy ===
/** Small value types shared by the capture model: optional values and
    results, order-preserving filtering of sequences, the lexicographic order
    on strings that the window catalog sorts by, and the decimal rendering of
    integers used when labels are built by string interpolation. */
module Common {

  datatype Option<+T> = None | Some(value: T)

  datatype Result<+T, +E> = Success(value: T) | Failure(error: E)

  /** The first element of a sequence, if there is one (Swift's `Array.first`). */
  function First<T>(s: seq<T>): (r: Option<T>)
    ensures r.None? <==> |s| == 0
    ensures r.Some? ==> r.value == s[0]
  {
    if |s| == 0 then None else Some(s[0])
  }

  // ---------------------------------------------------------------------------
  // Filtering

  /** The elements of `s` that satisfy `p`, in their original order
      (Swift's `Array.filter`). */
  function Filter<T(!new)>(s: seq<T>, p: T -> bool): (r: seq<T>)
    ensures |r| <= |s|
    ensures forall k :: 0 <= k < |r| ==> p(r[k])
    ensures forall x :: multiset(r)[x] == if p(x) then multiset(s)[x] else 0
  {
    if |s| == 0 then []
    else
      assert s == [s[0]] + s[1..];
      if p(s[0]) then [s[0]] + Filter(s[1..], p) else Filter(s[1..], p)
  }

  // ---------------------------------------------------------------------------
  // String order

  /** Swift's `<` on strings, taken as the lexicographic order of their
      characters: a proper prefix comes first, otherwise the first differing
      character decides. */
  predicate StrLess(a: string, b: string)
    decreases |a|
  {
    if |b| == 0 then false
    else if |a| == 0 then true
    else if a[0] != b[0] then a[0] < b[0]
    else StrLess(a[1..], b[1..])
  }

  /** `a` may come before `b` in an ascending order: `b < a` does not hold. */
  predicate StrLessEq(a: string, b: string) {
    !StrLess(b, a)
  }

  lemma {:induction false} StrLessIrreflexive(a: string)
    ensures !StrLess(a, a)
  {
    if |a| > 0 {
      StrLessIrreflexive(a[1..]);
    }
  }

  /** Any two different strings are ordered one way or the other. */
  lemma {:induction false} StrLessTotal(a: string, b: string)
    requires a != b
    ensures StrLess(a, b) || StrLess(b, a)
  {
    if |a| > 0 && |b| > 0 && a[0] == b[0] {
      assert a == [a[0]] + a[1..] && b == [b[0]] + b[1..];
      StrLessTotal(a[1..], b[1..]);
    }
  }

  lemma {:induction false} StrLessAsymmetric(a: string, b: string)
    requires StrLess(a, b)
    ensures !StrLess(b, a)
  {
    if |a| > 0 && |b| > 0 && a[0] == b[0] {
      StrLessAsymmetric(a[1..], b[1..]);
    }
  }

  lemma {:induction false} StrLessTransitive(a: string, b: string, c: string)
    requires StrLess(a, b) && StrLess(b, c)
    ensures StrLess(a, c)
  {
    if |a| > 0 && a[0] == b[0] && b[0] == c[0] {
      StrLessTransitive(a[1..], b[1..], c[1..]);
    }
  }

  /** `StrLessEq` is transitive. */
  lemma StrLessEqTransitive(a: string, b: string, c: string)
    requires StrLessEq(a, b) && StrLessEq(b, c)
    ensures StrLessEq(a, c)
  {
    if StrLess(c, a) {
      if a == b {
      } else {
        StrLessTotal(a, b);
        StrLessTransitive(c, a, b);
      }
    }
  }

  // ---------------------------------------------------------------------------
  // Decimal text (Swift string interpolation of an Int)

  predicate IsDigit(c: char) {
    '0' <= c <= '9'
  }

  predicate AllDigits(s: string) {
    forall k :: 0 <= k < |s| ==> IsDigit(s[k])
  }

  function DigitChar(d: nat): (c: char)
    requires d < 10
    ensures IsDigit(c) && c as int - '0' as int == d
  {
    ('0' as int + d) as char
  }

  /** The shortest decimal numeral of `n`. */
  function NatToDecimal(n: nat): (s: string)
    ensures |s| >= 1 && AllDigits(s)
    ensures s[0] == '0' ==> n == 0 && s == "0"
    decreases n
  {
    if n < 10 then [DigitChar(n)] else NatToDecimal(n / 10) + [DigitChar(n % 10)]
  }

  /** The value of a numeral made of decimal digits. */
  function DecimalValue(s: string): nat
    requires AllDigits(s)
    decreases |s|
  {
    if |s| == 0 then 0
    else DecimalValue(s[..|s| - 1]) * 10 + (s[|s| - 1] as int - '0' as int)
  }

  /** A shortest numeral: no leading zero unless it is "0" itself. */
  predicate NoLeadingZero(s: string) {
    |s| > 0 && (s[0] != '0' || |s| == 1)
  }

  /** Reads a shortest decimal numeral; padded numerals are refused. */
  function ParseDecimal(s: string): Option<nat> {
    if NoLeadingZero(s) && AllDigits(s) then Some(DecimalValue(s)) else None
  }

  /** How Swift renders an `Int`: a minus sign for negative values, then the
      decimal numeral of the magnitude. */
  function IntToDecimal(i: int): (s: string)
    ensures |s| >= 1
    ensures forall k :: 0 <= k < |s| ==> s[k] != ' '
  {
    if i < 0 then "-" + NatToDecimal(-i) else NatToDecimal(i)
  }

  /** Reads what `IntToDecimal` writes. */
  function ParseInt(s: string): Option<int> {
    if |s| > 0 && s[0] == '-' then
      match ParseDecimal(s[1..])
      case Some(n) => if n == 0 then None else Some(0 - n as int)
      case None => None
    else
      match ParseDecimal(s)
      case Some(n) => Some(n as int)
      case None => None
  }

  lemma {:induction false} DecimalRoundTrip(n: nat)
    ensures ParseDecimal(NatToDecimal(n)) == Some(n)
    decreases n
  {
    var s := NatToDecimal(n);
    if n >= 10 {
      DecimalRoundTrip(n / 10);
      var p := NatToDecimal(n / 10);
      assert s[..|s| - 1] == p;
      assert DecimalValue(s) == DecimalValue(p) * 10 + n % 10;
    }
  }

  /** Reading back the rendering of an integer gives that integer. */
  lemma IntRoundTrip(i: int)
    ensures ParseInt(IntToDecimal(i)) == Some(i)
  {
    if i < 0 {
      DecimalRoundTrip(-i);
      assert IntToDecimal(i)[1..] == NatToDecimal(-i);
    } else {
      DecimalRoundTrip(i);
    }
  }

  /** Every numeral `ParseDecimal` accepts is the one `NatToDecimal` writes
      for its value. */
  lemma {:induction false} DecimalCanonical(s: string)
    requires NoLeadingZero(s) && AllDigits(s)
    ensures s == NatToDecimal(DecimalValue(s))
    decreases |s|
  {
    var d := s[|s| - 1] as int - '0' as int;
    if |s| == 1 {
      assert DecimalValue(s) == DecimalValue(s[..0]) * 10 + d;
      assert s == [DigitChar(d)];
    } else {
      var p := s[..|s| - 1];
      assert p[0] == s[0];
      DecimalCanonical(p);
      var v := DecimalValue(p);
      assert v != 0;
      var n := DecimalValue(s);
      assert n == v * 10 + d;
      assert n / 10 == v && n % 10 == d;
      assert s == p + [DigitChar(d)];
    }
  }

  /** What `ParseDecimal` reads is exactly the numeral of the value it returns. */
  lemma ParseDecimalCanonical(s: string, n: nat)
    requires ParseDecimal(s) == Some(n)
    ensures s == NatToDecimal(n)
  {
    DecimalCanonical(s);
  }

  /** What `ParseInt` reads is exactly the text `IntToDecimal` writes for the
      value it returns: no padding and no "-0". */
  lemma ParseIntCanonical(s: string, i: int)
    requires ParseInt(s) == Some(i)
    ensures s == IntToDecimal(i)
  {
    if |s| > 0 && s[0] == '-' {
      var n := ParseDecimal(s[1..]).value;
      ParseDecimalCanonical(s[1..], n);
      assert s == "-" + s[1..];
    } else {
      ParseDecimalCanonical(s, ParseDecimal(s).value);
    }
  }

  /** The index of the first occurrence of `c` in `s`, if any. */
  function FindChar(s: string, c: char): (r: Option<nat>)
    ensures r.Some? ==> r.value < |s| && s[r.value] == c
    ensures r.Some? ==> forall k :: 0 <= k < r.value ==> s[k] != c
    ensures r.None? ==> forall k :: 0 <= k < |s| ==> s[k] != c
  {
    if |s| == 0 then None
    else if s[0] == c then Some(0)
    else
      match FindChar(s[1..], c)
      case Some(k) => Some(k + 1)
      case None => None
  }
}

=== FILE: screen_recorder.dfy ===
/** The session controller `ScreenRecorder`: the running/setup state machine
    behind `start`, `stop` and `updateEngine`, the catalog refresh with its
    auto-selection policy, and the property setters whose observers push a
    new configuration to the capture engine. The capture engine itself is
    represented by the list of calls made on it; content enumeration and the
    frame stream are inputs. */
module Recorder {
  import opened Common
  import opened Catalog
  import opened StreamSettings
  import opened Preview

  /** What one enumeration of shareable content returns. */
  datatype ShareableContent = ShareableContent(displays: seq<Display>, windows: seq<Window>, applications: seq<App>)

  /** Enumeration failed (for instance, screen-recording permission is missing). */
  datatype EnumerationError = EnumerationError

  /** How the frame stream ends: it finishes, or it throws. */
  datatype StreamEnd = StreamFinished | StreamFailed

  /** A call the controller makes on the capture engine. */
  datatype EngineCall =
    | StartCapture(config: StreamConfig, filter: ContentFilter)
    | UpdateCapture(config: StreamConfig, filter: ContentFilter)
    | StopCapture

  const DefaultTopSpace: int := 40

  class ScreenRecorder {
    var topSpace: int
    var isRunning: bool
    var captureType: CaptureType
    var selectedDisplay: Option<Display>
    var selectedWindow: Option<Window>
    var isAppExcluded: bool
    var contentSize: Size
    var availableApps: seq<App>
    var availableDisplays: seq<Display>
    var availableWindows: seq<Window>
    var isSetup: bool
    /** How many periodic refresh subscriptions have been registered. */
    var refreshTimers: nat
    /** Every call made on the capture engine, oldest first. */
    var engineCalls: seq<EngineCall>
    /** Set when the process has exited (permission alert) or trapped
        (no window selected) while building a content filter. */
    var halted: Option<Halt>

    const capturePreview: CapturePreview
    /** The main screen's backing scale factor as an integer. */
    const scaleFactor: int
    /** The capturing app's own bundle identifier, if it has one. */
    const ownBundleId: Option<string>

    /** While the process is alive and capturing, the capture type's target is
        selected, so every filter built for the engine exists. */
    ghost predicate Valid()
      reads this`isRunning, this`halted, this`captureType, this`selectedDisplay, this`selectedWindow
    {
      isRunning && halted.None? ==> HasTarget(captureType, selectedDisplay, selectedWindow)
    }

    function CurrentConfig(): StreamConfig
      reads this`captureType, this`selectedDisplay, this`selectedWindow, this`topSpace
    {
      StreamConfiguration(captureType, selectedDisplay, selectedWindow, topSpace, scaleFactor)
    }

    function CurrentFilter(): Result<ContentFilter, Halt>
      reads this`captureType, this`selectedDisplay, this`selectedWindow, this`isAppExcluded, this`availableApps
    {
      MakeContentFilter(captureType, selectedDisplay, selectedWindow, isAppExcluded, availableApps, ownBundleId)
    }

    constructor (scaleFactor: int, ownBundleId: Option<string>,
                 commandQueueMade: bool, defaultLibrary: Option<Library>, pipelineMade: bool)
      requires defaultLibrary.Some? ==> KernelName in defaultLibrary.value.functions
      ensures Valid() && halted.None?
      ensures this.scaleFactor == scaleFactor && this.ownBundleId == ownBundleId
      ensures topSpace == DefaultTopSpace && !isRunning && captureType == DisplayCapture
      ensures selectedDisplay.None? && selectedWindow.None? && isAppExcluded
      ensures contentSize == Size(1, 1)
      ensures availableApps == [] && availableDisplays == [] && availableWindows == []
      ensures !isSetup && refreshTimers == 0 && engineCalls == []
      ensures fresh(capturePreview) && fresh(capturePreview.metalView)
      // The preview's view is made with a device, as `CapturePreview.init` makes it.
      ensures var view := capturePreview.metalView;
        && view.hasDevice && view.hasCommandQueue == commandQueueMade
        && view.shaderLibrary == defaultLibrary
        && view.pipelineState == (if defaultLibrary.Some? && pipelineMade then Some(Pipeline(defaultLibrary.value, KernelName)) else None)
        && view.texture.None? && view.drawableSize == Size(0, 0) && !view.needsDisplay
    {
      this.scaleFactor := scaleFactor;
      this.ownBundleId := ownBundleId;
      topSpace := DefaultTopSpace;
      isRunning := false;
      captureType := DisplayCapture;
      selectedDisplay := None;
      selectedWindow := None;
      isAppExcluded := true;
      contentSize := Size(1, 1);
      availableApps := [];
      availableDisplays := [];
      availableWindows := [];
      isSetup := false;
      refreshTimers := 0;
      engineCalls := [];
      halted := None;
      capturePreview := new CapturePreview(commandQueueMade, defaultLibrary, pipelineMade);
    }

    // -------------------------------------------------------------------------
    // Pushing configuration to the engine

    /** What `updateEngine` did: nothing when not running; otherwise the
        engine got the current configuration and filter, or the process
        halted because the filter could not be built. */
    twostate predicate EngineNotified()
      reads this
    {
      if !isRunning then engineCalls == old(engineCalls) && halted == old(halted)
      else match CurrentFilter()
        case Success(f) => engineCalls == old(engineCalls) + [UpdateCapture(CurrentConfig(), f)] && halted == old(halted)
        case Failure(h) => engineCalls == old(engineCalls) && halted == Some(h)
    }

    method UpdateEngine()
      requires halted.None?
      modifies this`engineCalls, this`halted
      ensures EngineNotified()
    {
      if !isRunning {
        return;
      }
      var filter := CurrentFilter();
      match filter
      case Success(f) =>
        engineCalls := engineCalls + [UpdateCapture(CurrentConfig(), f)];
      case Failure(h) =>
        halted := Some(h);
    }

    method SetCaptureType(t: CaptureType)
      requires halted.None?
      modifies this`captureType, this`engineCalls, this`halted
      ensures captureType == t && EngineNotified()
      ensures halted.None? ==> Valid()
    {
      captureType := t;
      UpdateEngine();
    }

    method SetSelectedDisplay(d: Option<Display>)
      requires halted.None?
      modifies this`selectedDisplay, this`engineCalls, this`halted
      ensures selectedDisplay == d && EngineNotified()
      ensures halted.None? ==> Valid()
    {
      selectedDisplay := d;
      UpdateEngine();
    }

    method SetSelectedWindow(w: Option<Window>)
      requires halted.None?
      modifies this`selectedWindow, this`engineCalls, this`halted
      ensures selectedWindow == w && EngineNotified()
      ensures halted.None? ==> Valid()
    {
      selectedWindow := w;
      UpdateEngine();
    }

    method SetAppExcluded(b: bool)
      requires halted.None?
      modifies this`isAppExcluded, this`engineCalls, this`halted
      ensures isAppExcluded == b && EngineNotified()
      ensures halted.None? ==> Valid()
    {
      isAppExcluded := b;
      UpdateEngine();
    }

    /** The crop offset has no observer: changing it does not reach a running
        engine until the next start or the next update made for another
        reason. */
    method SetTopSpace(n: int)
      modifies this`topSpace
      ensures topSpace == n
    {
      topSpace := n;
    }

    // -------------------------------------------------------------------------
    // Catalog refresh

    /** The catalog and selection after one refresh: on an enumeration error
        nothing changed; otherwise the lists are replaced (windows through the
        filtering policy) and an empty selection takes the first entry, while
        an existing selection is kept. */
    twostate predicate CatalogRefreshed(content: Result<ShareableContent, EnumerationError>)
      reads this
    {
      match content
      case Failure(_) =>
        && availableDisplays == old(availableDisplays)
        && availableWindows == old(availableWindows)
        && availableApps == old(availableApps)
        && selectedDisplay == old(selectedDisplay)
        && selectedWindow == old(selectedWindow)
      case Success(c) =>
        && availableDisplays == c.displays
        && availableWindows == FilterWindows(c.windows, ownBundleId)
        && availableApps == c.applications
        && selectedDisplay == (if old(selectedDisplay).Some? then old(selectedDisplay) else First(c.displays))
        && selectedWindow == (if old(selectedWindow).Some? then old(selectedWindow) else First(availableWindows))
    }

    /** `refreshAvailableContent`, given the result of the enumeration. */
    method RefreshAvailableContent(content: Result<ShareableContent, EnumerationError>)
      requires Valid() && halted.None?
      modifies this`availableDisplays, this`availableWindows, this`availableApps
      modifies this`selectedDisplay, this`selectedWindow, this`engineCalls, this`halted
      ensures Valid() && halted.None?
      ensures CatalogRefreshed(content)
      // Filling the selection of the kind not being captured is the only way
      // a refresh reaches a running engine.
      ensures engineCalls == (if isRunning && content.Success? && (old(selectedDisplay).None? || old(selectedWindow).None?)
                              then old(engineCalls) + [UpdateCapture(CurrentConfig(), CurrentFilter().value)]
                              else old(engineCalls))
    {
      match content
      case Failure(_) =>
      case Success(c) =>
        StoreContent(c);
        FillEmptySelections();
    }

    /** The list-updating half of a successful refresh. */
    method StoreContent(c: ShareableContent)
      modifies this`availableDisplays, this`availableWindows, this`availableApps
      ensures availableDisplays == c.displays
      ensures availableWindows == FilterWindows(c.windows, ownBundleId)
      ensures availableApps == c.applications
    {
      availableDisplays := c.displays;
      var windows := FilterWindows(c.windows, ownBundleId);
      if windows != availableWindows {
        availableWindows := windows;
      }
      availableApps := c.applications;
    }

    /** The auto-selection half of a successful refresh: each empty selection
        takes the first available entry (possibly none), and each assignment
        notifies the engine. */
    method FillEmptySelections()
      requires Valid() && halted.None?
      modifies this`selectedDisplay, this`selectedWindow, this`engineCalls, this`halted
      ensures Valid() && halted.None?
      ensures selectedDisplay == (if old(selectedDisplay).Some? then old(selectedDisplay) else First(availableDisplays))
      ensures selectedWindow == (if old(selectedWindow).Some? then old(selectedWindow) else First(availableWindows))
      ensures engineCalls == (if isRunning && (old(selectedDisplay).None? || old(selectedWindow).None?)
                              then old(engineCalls) + [UpdateCapture(CurrentConfig(), CurrentFilter().value)]
                              else old(engineCalls))
    {
      if selectedDisplay.None? {
        SetSelectedDisplay(First(availableDisplays));
      }
      if selectedWindow.None? {
        SetSelectedWindow(First(availableWindows));
      }
    }

    /** `monitorAvailableContent`: the first call refreshes the catalog and
        registers the periodic refresh; once set up, it does nothing. */
    method MonitorAvailableContent(content: Result<ShareableContent, EnumerationError>)
      requires Valid() && halted.None?
      modifies this`availableDisplays, this`availableWindows, this`availableApps
      modifies this`selectedDisplay, this`selectedWindow, this`engineCalls, this`halted, this`refreshTimers
      ensures Valid() && halted.None?
      ensures old(isSetup) ==> unchanged(this)
      ensures !old(isSetup) ==> CatalogRefreshed(content) && refreshTimers == old(refreshTimers) + 1
      // A refresh reaches a running engine only by filling an empty selection.
      ensures engineCalls == (if !old(isSetup) && isRunning && content.Success?
                                 && (old(selectedDisplay).None? || old(selectedWindow).None?)
                              then old(engineCalls) + [UpdateCapture(CurrentConfig(), CurrentFilter().value)]
                              else old(engineCalls))
    {
      if isSetup {
        return;
      }
      RefreshAvailableContent(content);
      refreshTimers := refreshTimers + 1;
    }

    // -------------------------------------------------------------------------
    // Start and stop

    /** `start`. `content` is what the first-time catalog refresh enumerates;
        `deliveries` are the frames the stream yields, each with whether a
        texture could be made over it; `end` is how the stream ends. */
    method Start(content: Result<ShareableContent, EnumerationError>, deliveries: seq<Delivery>, end: StreamEnd)
      requires Valid() && halted.None?
      requires AllHaveSurfaces(deliveries)
      modifies this`availableDisplays, this`availableWindows, this`availableApps, this`refreshTimers
      modifies this`selectedDisplay, this`selectedWindow, this`engineCalls, this`halted
      modifies this`isSetup, this`isRunning, this`contentSize
      modifies capturePreview.metalView`texture, capturePreview.metalView`drawableSize
      modifies capturePreview.metalView`needsDisplay
      ensures Valid()
      // Already running: nothing happens.
      ensures old(isRunning) ==> unchanged(this) && unchanged(capturePreview.metalView)
      // Content monitoring is set up exactly once.
      ensures !old(isRunning) ==> isSetup
      ensures !old(isRunning) && !old(isSetup) ==> CatalogRefreshed(content) && refreshTimers == old(refreshTimers) + 1
      ensures old(isSetup) ==>
        && refreshTimers == old(refreshTimers)
        && availableDisplays == old(availableDisplays) && availableWindows == old(availableWindows)
        && availableApps == old(availableApps)
        && selectedDisplay == old(selectedDisplay) && selectedWindow == old(selectedWindow)
      // No target of the selected kind: the process halts before capturing.
      ensures !old(isRunning) && CurrentFilter().Failure? ==>
        && halted == Some(CurrentFilter().error) && !isRunning
        && engineCalls == old(engineCalls)
        && contentSize == old(contentSize)
        && unchanged(capturePreview.metalView)
      // Otherwise capture starts with the current configuration and filter,
      // every frame is bound in order, and a stream error ends the session.
      ensures !old(isRunning) && CurrentFilter().Success? ==>
        var view: MetalView := capturePreview.metalView;
        && halted.None?
        && engineCalls == old(engineCalls) + [StartCapture(CurrentConfig(), CurrentFilter().value)]
        && isRunning == (end == StreamFinished)
        && FramesBound(view, deliveries)
        && contentSize == (if |deliveries| == 0 then old(contentSize) else deliveries[|deliveries| - 1].frame.size)
    {
      if isRunning {
        return;
      }
      StartIdle(content, deliveries, end);
    }

    /** `start` past its guard: set up monitoring, then capture. */
    method StartIdle(content: Result<ShareableContent, EnumerationError>, deliveries: seq<Delivery>, end: StreamEnd)
      requires Valid() && halted.None? && !isRunning
      requires AllHaveSurfaces(deliveries)
      modifies this`availableDisplays, this`availableWindows, this`availableApps, this`refreshTimers
      modifies this`selectedDisplay, this`selectedWindow, this`engineCalls, this`halted
      modifies this`isSetup, this`isRunning, this`contentSize
      modifies capturePreview.metalView`texture, capturePreview.metalView`drawableSize
      modifies capturePreview.metalView`needsDisplay
      ensures Valid() && isSetup
      ensures !old(isSetup) ==> CatalogRefreshed(content) && refreshTimers == old(refreshTimers) + 1
      ensures old(isSetup) ==>
        && refreshTimers == old(refreshTimers)
        && availableDisplays == old(availableDisplays) && availableWindows == old(availableWindows)
        && availableApps == old(availableApps)
        && selectedDisplay == old(selectedDisplay) && selectedWindow == old(selectedWindow)
      ensures CurrentFilter().Failure? ==>
        && halted == Some(CurrentFilter().error) && !isRunning
        && engineCalls == old(engineCalls)
        && contentSize == old(contentSize)
        && unchanged(capturePreview.metalView)
      ensures CurrentFilter().Success? ==>
        var view: MetalView := capturePreview.metalView;
        && halted.None?
        && engineCalls == old(engineCalls) + [StartCapture(CurrentConfig(), CurrentFilter().value)]
        && isRunning == (end == StreamFinished)
        && FramesBound(view, deliveries)
        && contentSize == (if |deliveries| == 0 then old(contentSize) else deliveries[|deliveries| - 1].frame.size)
    {
      SetUpMonitoring(content);
      BeginCapture(deliveries, end);
    }

    /** The rest of `start`: build the configuration and filter, mark the
        session running, start the engine and consume its frames; a stream
        error clears the running flag. */
    method BeginCapture(deliveries: seq<Delivery>, end: StreamEnd)
      requires Valid() && halted.None? && !isRunning
      requires AllHaveSurfaces(deliveries)
      modifies this`engineCalls, this`halted, this`isRunning, this`contentSize
      modifies capturePreview.metalView`texture, capturePreview.metalView`drawableSize
      modifies capturePreview.metalView`needsDisplay
      ensures Valid()
      ensures CurrentFilter().Failure? ==>
        && halted == Some(CurrentFilter().error) && !isRunning
        && engineCalls == old(engineCalls)
        && contentSize == old(contentSize)
        && unchanged(capturePreview.metalView)
      ensures CurrentFilter().Success? ==>
        var view: MetalView := capturePreview.metalView;
        && halted.None?
        && engineCalls == old(engineCalls) + [StartCapture(CurrentConfig(), CurrentFilter().value)]
        && isRunning == (end == StreamFinished)
        && FramesBound(view, deliveries)
        && contentSize == (if |deliveries| == 0 then old(contentSize) else deliveries[|deliveries| - 1].frame.size)
    {
      var config := CurrentConfig();
      var filter := CurrentFilter();
      if filter.Failure? {
        halted := Some(filter.error);
        return;
      }
      RunSession(config, filter.value, deliveries, end);
    }

    /** Mark the session running, start the engine with `config` and
        `filter`, consume the frames; a stream error clears the running flag. */
    method RunSession(config: StreamConfig, filter: ContentFilter, deliveries: seq<Delivery>, end: StreamEnd)
      requires AllHaveSurfaces(deliveries)
      modifies this`engineCalls, this`isRunning, this`contentSize
      modifies capturePreview.metalView`texture, capturePreview.metalView`drawableSize
      modifies capturePreview.metalView`needsDisplay
      ensures engineCalls == old(engineCalls) + [StartCapture(config, filter)]
      ensures isRunning == (end == StreamFinished)
      ensures var view := capturePreview.metalView;
        && FramesBound(view, deliveries)
        && contentSize == (if |deliveries| == 0 then old(contentSize) else deliveries[|deliveries| - 1].frame.size)
    {
      isRunning := true;
      engineCalls := engineCalls + [StartCapture(config, filter)];
      ReceiveFrames(deliveries);
      if end == StreamFailed {
        isRunning := false;
      }
    }

    /** The first part of `start`: content monitoring is set up on the first
        start only. */
    method SetUpMonitoring(content: Result<ShareableContent, EnumerationError>)
      requires Valid() && halted.None? && !isRunning
      modifies this`availableDisplays, this`availableWindows, this`availableApps, this`refreshTimers
      modifies this`selectedDisplay, this`selectedWindow, this`engineCalls, this`halted, this`isSetup
      ensures Valid() && halted.None? && isSetup
      ensures engineCalls == old(engineCalls)
      ensures old(isSetup) ==> unchanged(this)
      ensures !old(isSetup) ==> CatalogRefreshed(content) && refreshTimers == old(refreshTimers) + 1
    {
      if !isSetup {
        MonitorAvailableContent(content);
        isSetup := true;
      }
    }

    /** The `for try await` loop of `start`: each frame is handed to the
        preview, and the content size follows the latest frame. */
    method ReceiveFrames(deliveries: seq<Delivery>)
      requires AllHaveSurfaces(deliveries)
      modifies this`contentSize, capturePreview.metalView`texture
      modifies capturePreview.metalView`drawableSize, capturePreview.metalView`needsDisplay
      ensures var view := capturePreview.metalView;
        && FramesBound(view, deliveries)
        && contentSize == (if |deliveries| == 0 then old(contentSize) else deliveries[|deliveries| - 1].frame.size)
    {
      var view: MetalView := capturePreview.metalView;
      var i := 0;
      while i < |deliveries|
        invariant 0 <= i <= |deliveries|
        invariant FramesBound(view, deliveries[..i])
        invariant contentSize == (if i == 0 then old(contentSize) else deliveries[i - 1].frame.size)
      {
        var delivery := deliveries[i];
        capturePreview.UpdateFrame(delivery.frame, delivery.textureMade);
        if contentSize != delivery.frame.size {
          contentSize := delivery.frame.size;
        }
        assert deliveries[..i + 1][..i] == deliveries[..i];
        i := i + 1;
      }
      assert deliveries[..|deliveries|] == deliveries;
    }

    /** `stop`: when running, stop the engine and clear the running flag;
        otherwise do nothing. */
    method Stop()
      modifies this`isRunning, this`engineCalls
      ensures Valid()
      ensures !isRunning
      ensures old(isRunning) ==> engineCalls == old(engineCalls) + [StopCapture]
      ensures !old(isRunning) ==> engineCalls == old(engineCalls)
    {
      if !isRunning {
        return;
      }
      engineCalls := engineCalls + [StopCapture];
      isRunning := false;
    }
  }
}

=== FILE: stream_settings.dfy ===
/** What the session controller hands to the capture engine: the stream
    configuration (`ScreenRecorder.streamConfiguration`) and the content filter
    (`ScreenRecorder.contentFilter`), both derived from the current selection. */
module StreamSettings {
  import opened Common
  import opened Catalog

  /** `ScreenRecorder.CaptureType`. */
  datatype CaptureType = DisplayCapture | WindowCapture

  datatype Rect = Rect(x: int, y: int, width: int, height: int)

  datatype PixelFormat = BGRA32

  /** A `CMTime` of `value / timescale` seconds. */
  datatype FrameInterval = FrameInterval(value: int, timescale: int)

  /** The fields of `SCStreamConfiguration` the controller sets. `None` in
      `width`, `height` or `sourceRect` means the field is left at the
      platform's default. */
  datatype StreamConfig = StreamConfig(
    capturesAudio: bool,
    width: Option<int>,
    height: Option<int>,
    sourceRect: Option<Rect>,
    showsCursor: bool,
    minimumFrameInterval: FrameInterval,
    queueDepth: int,
    pixelFormat: PixelFormat)

  const FramesPerSecond: int := 60
  const FrameQueueDepth: int := 5

  /** The stream configuration for the current selection. `scale` is the main
      screen's backing scale factor, already converted to an integer. The crop
      offset `topSpace` is not clamped: an offset larger than the display
      gives a negative height. */
  function StreamConfiguration(captureType: CaptureType, display: Option<Display>, window: Option<Window>,
                               topSpace: int, scale: int): (c: StreamConfig)
    ensures !c.capturesAudio && c.pixelFormat == BGRA32
    ensures c.minimumFrameInterval == FrameInterval(1, FramesPerSecond) && c.queueDepth == FrameQueueDepth
    // A display capture reads the display below the crop offset, and the
    // output is that rectangle scaled by the pixel density.
    ensures captureType == DisplayCapture && display.Some? ==>
      && c.sourceRect == Some(Rect(0, topSpace, display.value.width, display.value.height - topSpace))
      && c.width == Some(c.sourceRect.value.width * scale)
      && c.height == Some(c.sourceRect.value.height * scale)
      && !c.showsCursor
    // A window capture is the window's own size, unscaled and uncropped.
    ensures captureType == WindowCapture && window.Some? ==>
      c.width == Some(window.value.width) && c.height == Some(window.value.height) && c.sourceRect.None? && c.showsCursor
    // Without a target of the selected kind, size and source are left alone.
    ensures (captureType == DisplayCapture && display.None?) || (captureType == WindowCapture && window.None?) ==>
      c.width.None? && c.height.None? && c.sourceRect.None? && c.showsCursor
  {
    var base := StreamConfig(false, None, None, None, true, FrameInterval(1, FramesPerSecond), FrameQueueDepth, BGRA32);
    if captureType == DisplayCapture && display.Some? then
      var d := display.value;
      base.(width := Some(d.width * scale), height := Some((d.height - topSpace) * scale),
            sourceRect := Some(Rect(0, topSpace, d.width, d.height - topSpace)), showsCursor := false)
    else if captureType == WindowCapture && window.Some? then
      base.(width := Some(window.value.width), height := Some(window.value.height))
    else
      base
  }

  /** `SCContentFilter`: a whole display minus some applications' windows, or
      one window on its own. */
  datatype ContentFilter =
    | DisplayFilter(display: Display, excludedApps: seq<App>, exceptingWindows: seq<Window>)
    | SingleWindowFilter(window: Window)

  /** How the process ends when the filter cannot be built: a display capture
      without a display shows the permission alert and exits; a window capture
      without a window is a fatal error. */
  datatype Halt = PermissionAlertExit | NoWindowSelected

  /** The application matches the capturing app's own bundle identifier. */
  predicate IsOwnApp(a: App, ownBundleId: Option<string>) {
    ownBundleId == Some(a.bundleId)
  }

  /** The content filter for the current selection. */
  function MakeContentFilter(captureType: CaptureType, display: Option<Display>, window: Option<Window>,
                             isAppExcluded: bool, availableApps: seq<App>,
                             ownBundleId: Option<string>): (r: Result<ContentFilter, Halt>)
    ensures captureType == DisplayCapture ==> (r.Failure? <==> display.None?)
    ensures captureType == WindowCapture ==> (r.Failure? <==> window.None?)
    ensures r.Failure? ==> r.error == (if captureType == DisplayCapture then PermissionAlertExit else NoWindowSelected)
    ensures r.Success? && captureType == WindowCapture ==> r.value == SingleWindowFilter(window.value)
    ensures r.Success? && captureType == DisplayCapture ==>
      && r.value.DisplayFilter?
      && r.value.display == display.value
      && r.value.exceptingWindows == []
      && (!isAppExcluded ==> r.value.excludedApps == [])
      // Excluding the app leaves out exactly the available applications that
      // carry its bundle identifier, as often as they are listed.
      && (isAppExcluded ==> forall a :: multiset(r.value.excludedApps)[a] ==
                                        if IsOwnApp(a, ownBundleId) then multiset(availableApps)[a] else 0)
  {
    match captureType
    case DisplayCapture =>
      if display.None? then Failure(PermissionAlertExit)
      else
        var excluded := if isAppExcluded then Filter(availableApps, a => IsOwnApp(a, ownBundleId)) else [];
        Success(DisplayFilter(display.value, excluded, []))
    case WindowCapture =>
      if window.None? then Failure(NoWindowSelected)
      else Success(SingleWindowFilter(window.value))
  }

  /** The filter exists exactly when the capture type's target is selected. */
  predicate HasTarget(captureType: CaptureType, display: Option<Display>, window: Option<Window>) {
    match captureType
    case DisplayCapture => display.Some?
    case WindowCapture => window.Some?
  }
}
